=== FILE: README.md ===
# Attribute–topic synchronisation, modelled in Dafny

This project models the synchronisation core of a small MQTT bridge. The bridge
mirrors in-process object attributes to broker topics. Inbound messages update
attributes, attributes are published, and a background loop republishes the
current state.

The repository has three variants of this core, and all three are modelled:

- `MqttCommunicationManager` (ems_mqtt.py) keeps a registry of named objects
  and their attribute lists, with topics built as `"obj/attr"`. Inbound topics
  are routed back by `split('/')`, and a publish tick sends every attribute.
- `MQTTHandler` (ppc.py) keeps a flat attribute→topic config with a `data`
  and `last_update_time` store. Inbound routing is a first-match reverse
  lookup, and a publish tick skips `None` values.
- `MQTTHandler.add_config` and `MQTTEngineEntity` (ppc1.py) add registration
  after construction and an entity view over the shared store. Entity writes
  publish at once, and entity reads fall back to the store.

Every callback is a pure function. It takes the handler state and its inputs,
and it returns the new state plus the client calls it makes, as a sequence of
`Subscribe(topic)` / `Publish(topic, payload)` events. Python dicts are
ordered item sequences (`Dicts`), because iteration order fixes the order of
subscriptions and publications. The JSON library and UTF-8 are the four total
functions of a `Json.Codec`. `Json.RoundTrips(c, v)` states the round-trip law
for one value `v`: UTF-8 decoding gives back the encoded text of `json.dumps(v)`,
and `json.loads` gives back `v`.
Python's `None` and JSON `null` are the same value, `Value.Null`.

Modules: `Wrappers` (Option/Result), `Dicts` (ordered dicts), `Json` (values,
codec, raw-text fallback), `Bus` (events), `Topics` (`"obj/attr"` and
`str.split('/')`), `CommManager` (ems_mqtt.py), `SyncHandler` (ppc.py and the
handler of ppc1.py), `EngineEntity` (the entity of ppc1.py).

`on_connect` and `on_message` are the same in ppc.py and ppc1.py apart from the
name of the config field (`self.config` and `self._config`). They are modelled
once, in `SyncHandler`. Rows for them cite ppc.py.

## Behaviours of the code worth knowing

- ems_mqtt.py lets a payload that is not UTF-8 raise out of `on_message`
  (line 88). The model returns `Err(UnicodeDecodeError)`. ppc.py and ppc1.py
  catch the error (ppc.py:38-39) and leave the state unchanged.
- Nothing stops two attributes from sharing a topic. The first attribute in
  config order receives every message on it (`SyncHandler.FirstMatchWins`),
  and an echoed publication of the later one is stored into the first
  (`SyncHandler.SharedTopicCrossTalk`).
- ems_mqtt.py subscribes only when `rc == 0` (line 67). ppc.py and ppc1.py
  subscribe whatever `rc` is.
- Registration has no default values. `add_config` resets the value and the
  timestamp to `None`, and it subscribes even when the client is not
  connected (ppc1.py:44-48).
- An entity write leaves `last_update_time` alone. Only inbound messages
  stamp the time (ppc.py:37).
- An entity write to a name outside its config raises nothing. It sets an
  attribute on the instance only (ppc1.py:67-72). An unknown read raises
  `AttributeError` (ppc1.py:78).
- The reverse lookup from topic to attribute scans the config in order
  (ppc.py:34), and the model does the same (`Dicts.FindValue`).

## Model

| member | source | states |
|---|---|---|
| `Dicts.Put` | ems_mqtt.py:54-57 | Dict assignment binds the key to the value and leaves every other key's lookup unchanged. An existing key keeps its position; a new key is appended at the end. |
| `Dicts.Get` | ppc1.py:69 | `d.get(k)` returns a value exactly when `k` is a key of the dict. |
| `Dicts.FindValue` | ppc.py:34 | The reverse lookup returns the index of the first item whose topic equals the given one, or reports that no item has it. |
| `Topics.Split` | ems_mqtt.py:80 | `split('/')` yields at least one piece, and no piece contains a slash. |
| `Topics.JoinAllSplit` | ems_mqtt.py:80 | Joining the pieces of a split with `/` gives back the original topic. |
| `Topics.SplitJoinAll` | ems_mqtt.py:80-82 | Splitting `"/".join(parts)` gives back `parts` when no part contains a slash. |
| `Topics.RouteJoin` | ems_mqtt.py:80-85 | `Route`, the split-and-check at the top of `on_message`, sends a topic built as `f"{obj}/{attr}"` back to exactly `(obj, attr)` if and only if neither name contains `/`. |
| `Topics.RouteSlashFree` | ems_mqtt.py:81-82 | Whatever pair a topic is routed to, neither name contains a slash. |
| `Topics.RouteOfJoin` | ems_mqtt.py:80-85 | Whenever a topic built as `f"{obj}/{attr}"` is routed at all, it is routed to exactly `(obj, attr)`. |
| `Topics.SlashedRouteNone` | ems_mqtt.py:80-85 | A topic built from names of which one contains `/` splits into more than two pieces and is ignored by `on_message`. |
| `Json.RawTextFallback` | ems_mqtt.py:89-93 | `Decode` stores text that is not JSON as the raw string itself, so decoding never fails. ppc.py:28-31 does the same. |
| `Json.DecodeDump` | ppc.py:27-31 | For a value the codec round-trips, `Decode` of the text `json.dumps` produced gives back the value. |
| `CommManager.Init` | ems_mqtt.py:31 | A new manager has no registered objects, and its registry is a valid dict. |
| `CommManager.AddObject` | ems_mqtt.py:46-64 | Binds the name to the object and attribute list, replacing an earlier registration in place. Other names are unchanged. When connected, it subscribes `name/attr` for each attribute in list order; when disconnected, it emits nothing. |
| `CommManager.OnConnect` | ems_mqtt.py:66-76 | With `rc == 0`, every event is a subscription to a registered `obj/attr`, and every registered pair is subscribed. With `rc != 0`, nothing is subscribed. |
| `CommManager.OnConnectInOrder` | ems_mqtt.py:70-73 | On success, the subscriptions follow the registry order: the topics of the object at position `i` come after those of every earlier object and before those of every later one, in the order of its attribute list. |
| `CommManager.AddObjectThenReconnect` | ems_mqtt.py:59-64 | Registering a new object while connected subscribes exactly the topics that a later reconnect adds for it, at the end of the reconnect's order. |
| `CommManager.SetAttribute` | ems_mqtt.py:95-103 | Only `obj.attr` can change, and only when the object is registered, lists the attribute and already has it. The registered names, their order, every attribute list (as a sequence) and every object's attribute set are preserved. |
| `CommManager.OnMessage` | ems_mqtt.py:78-103 | A topic that does not split into two pieces leaves the state unchanged. Otherwise a non-UTF-8 payload raises. If neither happens, only the routed `obj.attr` can change, and when the guards hold it becomes the JSON-or-raw value. The registered names and every attribute list are preserved. |
| `CommManager.SlashedNameUnreachable` | ems_mqtt.py:80-85 | An object whose name contains `/` is never changed by any inbound message. |
| `CommManager.PublishAttributes` | ems_mqtt.py:133-142 | Every event is a publish of `json.dumps(value)` to `obj/attr` for a registered attribute the object has. Every such attribute is published, `None` values included. |
| `CommManager.PublishOneMembers` | ems_mqtt.py:137-142 | The publications for one object are exactly those of its listed attributes it has: each event publishes one of them, and each of them is published. |
| `CommManager.PublishAllMembers` | ems_mqtt.py:135-142 | The publications of a registry are exactly those of its items: each event publishes a listed attribute some item's object has, and each such attribute is published. |
| `CommManager.PublishAttributesInOrder` | ems_mqtt.py:135-142 | A tick publishes in registry order: the publications for the object at position `i` come after those of every earlier object and before those of every later one. |
| `CommManager.PublishOneInOrder` | ems_mqtt.py:137-142 | Within one object the tick follows the attribute list: the attribute at position `j` gives exactly one publish if the object has it and none otherwise, after the attributes listed before it and before those listed after it. |
| `CommManager.PublishAttributesAt` | ems_mqtt.py:135-142 | The whole tick, position by position: the publication for attribute `j` of object `i` sits between everything for earlier objects and earlier attributes and everything for later ones. Together with `PublishOneInOrder` this fixes the tick's exact sequence. |
| `CommManager.EchoIsStable` | ems_mqtt.py:133-142 | When the codec round-trips the published value, feeding back to `on_message` the publication of any registered attribute the object has leaves the registry unchanged. By `PublishAttributes`, every event of a tick is such a publication. |
| `SyncHandler.Init` | ppc.py:10-13 | After construction, `data` and `last_update_time` have exactly the config's keys, and every entry is `None`. |
| `SyncHandler.OnConnect` | ppc.py:19-23 | Subscribes to every configured topic, in config order, whatever `rc` is. |
| `SyncHandler.OnMessage` | ppc.py:25-39 | A decode failure, an unbound topic, or a match on the attribute `""` leaves the state unchanged. Otherwise the first matching attribute gets the JSON-or-raw value and the time `now`. All other entries are unchanged and the key sets agree. |
| `SyncHandler.FirstMatchWins` | ppc.py:34-36 | When two attributes share a topic, a message on it never changes the later one's value or timestamp. |
| `SyncHandler.PublishTickMembers` | ppc.py:46-50 | Every event publishes the non-`None` value of a configured attribute to its topic. Every attribute whose value is not `None` is published, including `0`, `False` and `""`. |
| `SyncHandler.PublishTickCount` | ppc.py:48-50 | A tick publishes exactly once per configured attribute whose value is not `None`. |
| `SyncHandler.PublishTickInOrder` | ppc.py:46-50 | A tick follows config order: the item at position `i` gives exactly one publish if its value is not `None` and none otherwise, after every earlier item and before every later one. This fixes the tick's exact sequence. |
| `SyncHandler.EchoKeepsData` | ppc.py:25-37 | With one attribute per topic and a codec that round-trips every stored value, an echoed publication of a tick leaves `data` unchanged. |
| `SyncHandler.SharedTopicCrossTalk` | ppc.py:33-36 | When attribute `i` is the first bound to a topic that a later attribute `j` shares, the echo of `j`'s publication, which is an event of the tick, is stored into attribute `i`, provided the codec round-trips `j`'s value. |
| `SyncHandler.InitOptional` | ppc1.py:6-12 | With no config, the config, `data` and `last_update_time` are all empty. Otherwise the given config is kept. Either way the key sets agree, and every value and timestamp is `None`. |
| `SyncHandler.Register` | ppc1.py:44-48 | One `add_config` entry adds `attr` to the configured keys and nothing else. A rebound attribute keeps its position, so the key order is unchanged; a new attribute is appended at the end with its topic. The key sets still agree. |
| `SyncHandler.RegisterDistinct` | ppc1.py:44-45 | One `add_config` entry keeps the config a dict: `attr` is bound once, even when it was bound before. |
| `SyncHandler.RegisterEffect` | ppc1.py:44-47 | One `add_config` entry binds or overwrites `attr→topic` and resets its value and timestamp to `None`. Every other attribute keeps its binding, value and timestamp. |
| `SyncHandler.AddConfig` | ppc1.py:42-49 | Subscribes every new topic in order, whether connected or not. The config keys grow by exactly the new keys, and the key-set invariant is preserved. Where each attribute lands is stated by `AddConfigKeepsPositions`, `AddConfigAppendsNew` and `AddConfigSequential`. |
| `SyncHandler.AddConfigSequential` | ppc1.py:44-48 | `add_config` handles its entries one after another: one call on two configs laid end to end gives the same handler and the same subscriptions as two calls in turn. |
| `SyncHandler.AddConfigKeepsPositions` | ppc1.py:44-45 | Every attribute already configured keeps its position, rebound or not, so `on_connect` order and first-match routing among them are unchanged. |
| `SyncHandler.AddConfigAppendsNew` | ppc1.py:44-45 | Whatever is added after the old config is an attribute of the argument that was not configured before. |
| `SyncHandler.AddConfigDistinct` | ppc1.py:44-45 | After `add_config` the config is still a dict: no attribute is bound twice, even when the argument rebinds an existing one. |
| `SyncHandler.AddConfigResets` | ppc1.py:44-47 | Every attribute named in the argument ends with value and timestamp `None`, even if it was set before, and is bound to the topic given for it. |
| `SyncHandler.AddConfigFrame` | ppc1.py:44-47 | Attributes not named in the argument keep their binding, value and timestamp. |
| `SyncHandler.AddConfigFresh` | ppc1.py:44-45 | Registering new keys appends them to the config in order. |
| `SyncHandler.ReconnectMatchesRegistration` | ppc1.py:17-21 | After registering a config on an empty handler, `on_connect` subscribes the same topics, in the same order, as the registration did. |
| `EngineEntity.New` | ppc1.py:60-63 | The entity keeps its config and has no local attributes. On the handler, every declared attribute has value and timestamp `None` and, when the declared config is a dict, is bound to its declared topic. Every other attribute keeps its binding, value and timestamp. Every declared topic is subscribed, in order, and the key-set invariant is preserved. |
| `EngineEntity.SetAttr` | ppc1.py:65-72 | A declared name sets `handler.data[name]` and publishes `json.dumps(value)` to the handler's current topic for it, unless that topic is `""`. It never touches the timestamps. Any other name changes neither the store nor the events. In every case the value is stored on the instance, which gains no other attribute. |
| `EngineEntity.GetAttr` | ppc1.py:74-78 | A read raises `AttributeError` exactly when neither the instance nor `handler.data` has the name. Otherwise the instance's own value comes first, then the handler's. |
| `EngineEntity.WriteShadowsLaterUpdates` | ppc1.py:72-77 | After a write, reads return the written value whatever the handler's store later holds. |
| `EngineEntity.InboundVisibleWithoutLocalWrite` | ppc1.py:74-77 | Without a local write, a read returns the value the last inbound message stored. |
| `EngineEntity.ReadSeesOtherEntities` | ppc1.py:76-77 | An entity reads the (still `None`) value of an attribute that a later entity registered. |
| `EngineEntity.WriteUsesLatestBinding` | ppc1.py:68-71 | When a later entity rebinds a name to another topic, an earlier entity's write publishes to the later topic. |
| `EngineEntity.KeysAgreeInvariant` | ppc1.py:11-12 | The constructor establishes `keys(data) == keys(last_update_time) == keys(_config)`. `add_config`, `on_message`, entity construction and entity writes preserve it. |

## Left out

- The paho-mqtt client is left out: `connect`, `loop_start`/`loop_stop`, `disconnect`, `is_connected` and credentials. The bus is the event log, and `connected` and `rc` are inputs.
- `start`, `stop`, `_run_loop`, `publish_background`'s loop, threads, sleeps and the stop event are left out. They are concurrency and timing. One publish tick is modelled as a pure step.
- `time.time()` is left out; the clock is the `now` parameter.
- JSON and UTF-8 internals are left out, since they are library code. The codec is four abstract total functions, and only the raw-text fallback is modelled.
- `json.dumps` never fails in the model, because values are JSON values. The `TypeError` a Python object that is not serialisable would raise is not modelled.
- `print` logging and `on_disconnect` are left out; the latter only prints.
- Python objects are reduced to a map from attribute name to value, and `hasattr` is key membership. Class attributes, methods and properties are not modelled. Aliasing is not modelled either: the same object under two names, or a caller mutating a registered object or list.
- The `__main__` demos are example consumers, not synchronisation logic. This includes the power-control arithmetic of ppc.py and the `Site`, `Inverter` and `Meter` subclasses, which only supply fixed configs.
- EngineEntity.SetAttr: names `handler` and `_config` are excluded by its precondition. They are the instance slots that hold the handler reference and the config, and assigning to them rebinds those slots.
- EngineEntity.GetAttr: names `handler` and `_config` are excluded by its precondition. A read of them returns the handler object or the config dict, which are not attribute values.
- PublishAttributes: its own contract states which events a tick sends. Their order, and one publish per listed attribute, are stated by `PublishAttributesInOrder`, `PublishOneInOrder` and `PublishAttributesAt`, which keeps each proof small.
- PublishTickMembers: it states which events a tick sends. Their order, and one publish per item, are stated by `PublishTickInOrder`.
- Numbers are reals. The echo lemmas require `Json.RoundTrips` of the values they echo. Python's codec meets it for floats (and the other values it writes back exactly), not for every real.
- JSON objects are maps from member name to value, as the Python dicts `json.loads` returns. Member order is not modelled, and Python's dict equality ignores it too.

=== FILE: bus.dfy ===
/** The message bus as seen from the handlers: the calls they make on the client. */
module Bus {
  /** One call on the MQTT client: `subscribe(topic)` or `publish(topic, payload)`. */
  datatype Event = Subscribe(topic: string) | Publish(topic: string, payload: string)
}

=== FILE: comm_manager.dfy ===
/**
  `MqttCommunicationManager` (ems_mqtt.py): a registry of named Python objects
  and the attributes of each that are mirrored to topics `"obj/attr"`.
  Each callback is a pure step from the registry (and its inputs) to the new
  registry and the client calls it makes.
 */
module CommManager {
  import opened Wrappers
  import opened Dicts
  import opened Json
  import opened Bus
  import opened Topics

  /** A managed Python object, reduced to its attributes; `hasattr` is key membership. */
  type Instance = map<string, Value>

  /** The entry `{"obj": obj, "attributes": attributes}` kept per object name. */
  datatype Registration = Registration(obj: Instance, attributes: seq<string>)

  /** The manager's state: the ordered registry `self.objects`. */
  datatype Manager = Manager(objects: Dict<string, Registration>)

  /** The exception `on_message` lets escape: the payload is not UTF-8. */
  datatype Error = UnicodeDecodeError

  /** The registry is a dict: each object name occurs once. */
  ghost predicate Valid(m: Manager) {
    DistinctKeys(m.objects)
  }

  /** The manager a constructor call yields: nothing registered yet. */
  function Init(): (m: Manager)
    ensures Valid(m)
    ensures forall n :: Get(m.objects, n).None?
  {
    Manager([])
  }

  /** `attr` is in the attribute list registered under `objName`. */
  predicate Registered(m: Manager, objName: string, attr: string) {
    match Get(m.objects, objName)
    case None => false
    case Some(reg) => attr in reg.attributes
  }

  /** `attr` is registered under `objName` and the object has it. */
  predicate Updatable(m: Manager, objName: string, attr: string) {
    match Get(m.objects, objName)
    case None => false
    case Some(reg) => attr in reg.attributes && attr in reg.obj
  }

  /** `getattr(obj, attr)` for the object registered under `objName`, when it has `attr`. */
  function AttrValue(m: Manager, objName: string, attr: string): Option<Value> {
    match Get(m.objects, objName)
    case None => None
    case Some(reg) => if attr in reg.obj then Some(reg.obj[attr]) else None
  }

  /** One `subscribe` per attribute, in list order. */
  function SubscribeAll(objName: string, attrs: seq<string>): (evs: seq<Event>)
    ensures |evs| == |attrs|
    ensures forall i :: 0 <= i < |attrs| ==> evs[i] == Subscribe(Join(objName, attrs[i]))
  {
    if attrs == [] then []
    else [Subscribe(Join(objName, attrs[0]))] + SubscribeAll(objName, attrs[1..])
  }

  /**
    `add_object`: bind `objName` to the object and its attribute list,
    replacing any earlier registration under that name, and subscribe to the
    new topics only when the client is connected.
   */
  function AddObject(m: Manager, objName: string, obj: Instance, attributes: seq<string>,
                     connected: bool): (r: (Manager, seq<Event>))
    ensures Get(r.0.objects, objName) == Some(Registration(obj, attributes))
    ensures forall n :: n != objName ==> Get(r.0.objects, n) == Get(m.objects, n)
    ensures objName in Keys(m.objects) ==> KeyOrder(r.0.objects) == KeyOrder(m.objects)
    ensures objName !in Keys(m.objects) ==> KeyOrder(r.0.objects) == KeyOrder(m.objects) + [objName]
    ensures Valid(m) ==> Valid(r.0)
    ensures connected ==> |r.1| == |attributes|
    ensures connected ==> forall i :: 0 <= i < |attributes| ==> r.1[i] == Subscribe(Join(objName, attributes[i]))
    ensures !connected ==> r.1 == []
  {
    var objects := Put(m.objects, objName, Registration(obj, attributes));
    assert Valid(m) ==> DistinctKeys(objects) by {
      if Valid(m) { PutDistinct(m.objects, objName, Registration(obj, attributes)); }
    }
    assert objName !in Keys(m.objects) ==> KeyOrder(objects) == KeyOrder(m.objects) + [objName] by {
      if objName !in Keys(m.objects) {
        assert objects == m.objects + [(objName, Registration(obj, attributes))];
      }
    }
    (Manager(objects), if connected then SubscribeAll(objName, attributes) else [])
  }

  /** Some registered item lists `attr`, and `t` is the topic built from them. */
  ghost predicate IsTopicOf(d: Dict<string, Registration>, t: string) {
    exists n, reg, a :: (n, reg) in d && a in reg.attributes && t == Join(n, a)
  }

  /** The subscriptions for every item of the registry, in dict then list order. */
  function SubscriptionsOf(d: Dict<string, Registration>): seq<Event> {
    if d == [] then [] else SubscribeAll(d[0].0, d[0].1.attributes) + SubscriptionsOf(d[1..])
  }

  /**
    The subscriptions of a registry are exactly those of its items: each one
    is for a topic built from an item and a listed attribute, and every such
    topic is subscribed.
   */
  lemma {:induction false} SubscriptionsOfMembers(d: Dict<string, Registration>)
    ensures forall e :: e in SubscriptionsOf(d) ==> e.Subscribe? && IsTopicOf(d, e.topic)
    ensures forall n, reg, a :: (n, reg) in d && a in reg.attributes ==> Subscribe(Join(n, a)) in SubscriptionsOf(d)
  {
    if d != [] {
      var head := SubscribeAll(d[0].0, d[0].1.attributes);
      var tail := SubscriptionsOf(d[1..]);
      SubscriptionsOfMembers(d[1..]);
      assert SubscriptionsOf(d) == head + tail;
      forall e | e in head
        ensures e.Subscribe? && IsTopicOf(d, e.topic)
      {
        var i :| 0 <= i < |head| && head[i] == e;
        assert d[0] in d && d[0].1.attributes[i] in d[0].1.attributes;
      }
      forall e | e in tail
        ensures IsTopicOf(d, e.topic)
      {
        var n, reg, a :| (n, reg) in d[1..] && a in reg.attributes && e.topic == Join(n, a);
        assert (n, reg) in d;
      }
      forall n, reg, a | (n, reg) in d && a in reg.attributes
        ensures Subscribe(Join(n, a)) in head + tail
      {
        if (n, reg) == d[0] {
          var i :| 0 <= i < |reg.attributes| && reg.attributes[i] == a;
          assert head[i] == Subscribe(Join(n, a));
        } else {
          assert (n, reg) in d[1..];
        }
      }
    }
  }

  /**
    `on_connect`: on success (`rc == 0`) subscribe to `"obj/attr"` for every
    registered object and attribute; on failure subscribe to nothing.
   */
  function OnConnect(m: Manager, rc: int): (evs: seq<Event>)
    ensures rc != 0 ==> evs == []
    ensures rc == 0 && Valid(m) ==>
      forall e :: e in evs ==> e.Subscribe? && exists n, a :: Registered(m, n, a) && e.topic == Join(n, a)
    ensures rc == 0 ==> forall n, a :: Registered(m, n, a) ==> Subscribe(Join(n, a)) in evs
  {
    if rc != 0 then []
    else
      var evs := SubscriptionsOf(m.objects);
      SubscriptionsOfMembers(m.objects);
      assert forall n, a :: Registered(m, n, a) ==> Subscribe(Join(n, a)) in evs by {
        forall n, a | Registered(m, n, a)
          ensures Subscribe(Join(n, a)) in evs
        {
          GetIsItem(m.objects, n);
        }
      }
      assert Valid(m) ==> forall e :: e in evs ==> exists n, a :: Registered(m, n, a) && e.topic == Join(n, a) by {
        if Valid(m) {
          forall e | e in evs
            ensures exists n, a :: Registered(m, n, a) && e.topic == Join(n, a)
          {
            var n, reg, a :| (n, reg) in m.objects && a in reg.attributes && e.topic == Join(n, a);
            ItemIffGet(m.objects, n, reg);
            assert Registered(m, n, a);
          }
        }
      }
      evs
  }

  /** The subscriptions of two registries laid end to end are laid end to end. */
  lemma {:induction false} SubscriptionsOfConcat(d1: Dict<string, Registration>, d2: Dict<string, Registration>)
    ensures SubscriptionsOf(d1 + d2) == SubscriptionsOf(d1) + SubscriptionsOf(d2)
  {
    if d1 == [] {
      assert d1 + d2 == d2;
    } else {
      assert (d1 + d2)[1..] == d1[1..] + d2;
      SubscriptionsOfConcat(d1[1..], d2);
    }
  }

  /**
    `on_connect` subscribes in registry order: the topics of the object at
    position `i` come after those of every earlier object and before those of
    every later one, in the order of its attribute list.
   */
  lemma OnConnectInOrder(m: Manager, i: nat)
    requires i < |m.objects|
    ensures OnConnect(m, 0) == SubscriptionsOf(m.objects[..i])
                             + SubscribeAll(m.objects[i].0, m.objects[i].1.attributes)
                             + SubscriptionsOf(m.objects[i + 1..])
  {
    SubscriptionsSplit(m.objects, i);
  }

  /** The subscriptions of a registry, split around its item at position `i`. */
  lemma SubscriptionsSplit(d: Dict<string, Registration>, i: nat)
    requires i < |d|
    ensures SubscriptionsOf(d) == SubscriptionsOf(d[..i]) + SubscribeAll(d[i].0, d[i].1.attributes)
                                  + SubscriptionsOf(d[i + 1..])
  {
    var before, item, after := d[..i], [d[i]], d[i + 1..];
    var own := SubscribeAll(d[i].0, d[i].1.attributes);
    calc {
      SubscriptionsOf(d);
      { SplitAround(d, i); }
      SubscriptionsOf(before + (item + after));
      { SubscriptionsOfConcat(before, item + after); }
      SubscriptionsOf(before) + SubscriptionsOf(item + after);
      { SubscriptionsOfConcat(item, after); SubscriptionsOfSingle(d[i].0, d[i].1); }
      SubscriptionsOf(before) + (own + SubscriptionsOf(after));
      SubscriptionsOf(before) + own + SubscriptionsOf(after);
    }
  }

  /** The subscriptions of a one-item registry are those of its attribute list. */
  lemma SubscriptionsOfSingle(n: string, reg: Registration)
    ensures SubscriptionsOf([(n, reg)]) == SubscribeAll(n, reg.attributes)
  {
    assert [(n, reg)][1..] == [];
    assert SubscriptionsOf([(n, reg)]) == SubscribeAll(n, reg.attributes) + SubscriptionsOf([]);
  }

  /**
    No missed-update window: registering a new object while connected
    subscribes exactly what a reconnect would additionally subscribe, in the
    same position of the subscription order.
   */
  lemma AddObjectThenReconnect(m: Manager, objName: string, obj: Instance, attributes: seq<string>)
    requires objName !in Keys(m.objects)
    ensures var (m', evs) := AddObject(m, objName, obj, attributes, true);
            OnConnect(m', 0) == OnConnect(m, 0) + evs
  {
    var reg := Registration(obj, attributes);
    assert Put(m.objects, objName, reg) == m.objects + [(objName, reg)];
    SubscriptionsOfConcat(m.objects, [(objName, reg)]);
    assert SubscriptionsOf([(objName, reg)]) == SubscribeAll(objName, attributes) + SubscriptionsOf([]);
  }

  /** Assign `v` to `objName.attr` when the guards of `on_message` allow it. */
  function SetAttribute(m: Manager, objName: string, attr: string, v: Value): (r: Manager)
    ensures KeyOrder(r.objects) == KeyOrder(m.objects)
    ensures Valid(m) ==> Valid(r)
    ensures forall n, a :: Registered(r, n, a) <==> Registered(m, n, a)
    ensures forall n :: Get(r.objects, n).Some? <==> Get(m.objects, n).Some?
    ensures forall n :: Get(r.objects, n).Some? ==> Get(r.objects, n).value.attributes == Get(m.objects, n).value.attributes
    ensures forall n, a :: AttrValue(r, n, a).Some? <==> AttrValue(m, n, a).Some?
    ensures forall n, a :: (n, a) != (objName, attr) ==> AttrValue(r, n, a) == AttrValue(m, n, a)
    ensures Updatable(m, objName, attr) ==> AttrValue(r, objName, attr) == Some(v)
    ensures !Updatable(m, objName, attr) ==> r == m
  {
    match Get(m.objects, objName)
    case None => m
    case Some(reg) =>
      if attr in reg.attributes && attr in reg.obj then
        var reg' := reg.(obj := reg.obj[attr := v]);
        assert objName in Keys(m.objects);
        assert Valid(m) ==> DistinctKeys(Put(m.objects, objName, reg')) by {
          if Valid(m) { PutDistinct(m.objects, objName, reg'); }
        }
        Manager(Put(m.objects, objName, reg'))
      else m
  }

  /**
    `on_message`: split the topic on `/`; ignore it unless it has exactly two
    pieces; decode the payload as UTF-8 (an error here escapes the callback);
    take its JSON value or else the raw text; and assign it to `obj.attr` only
    when the object is registered, lists the attribute and already has it.
   */
  function OnMessage(m: Manager, c: Codec, topic: string, payload: seq<byte>): (r: Result<Manager, Error>)
    ensures Route(topic).None? ==> r == Ok(m)
    ensures Route(topic).Some? && c.decodeUtf8(payload).None? ==> r == Err(UnicodeDecodeError)
    ensures Route(topic).Some? && c.decodeUtf8(payload).Some? ==> r.Ok?
    ensures r.Ok? ==> (Valid(m) ==> Valid(r.value))
    ensures r.Ok? ==> KeyOrder(r.value.objects) == KeyOrder(m.objects)
    ensures r.Ok? ==> forall n, a :: Registered(r.value, n, a) <==> Registered(m, n, a)
    ensures r.Ok? ==> forall n :: Get(r.value.objects, n).Some? <==> Get(m.objects, n).Some?
    ensures r.Ok? ==> forall n :: Get(r.value.objects, n).Some? ==>
                                    Get(r.value.objects, n).value.attributes == Get(m.objects, n).value.attributes
    ensures r.Ok? ==> forall n, a :: AttrValue(r.value, n, a).Some? <==> AttrValue(m, n, a).Some?
    ensures r.Ok? ==> forall n, a :: AttrValue(r.value, n, a) != AttrValue(m, n, a) ==>
                                      (Route(topic) == Some((n, a)) && Updatable(m, n, a))
    ensures r.Ok? && Route(topic).Some? && Updatable(m, Route(topic).value.0, Route(topic).value.1) ==>
              AttrValue(r.value, Route(topic).value.0, Route(topic).value.1)
                == Some(Decode(c, c.decodeUtf8(payload).value))
  {
    match Route(topic)
    case None => Ok(m)
    case Some((objName, attr)) =>
      match c.decodeUtf8(payload)
      case None => Err(UnicodeDecodeError)
      case Some(text) => Ok(SetAttribute(m, objName, attr, Decode(c, text)))
  }

  /**
    Objects whose name contains a slash can never be updated by an inbound
    message, since no topic splits into a piece containing a slash.
   */
  lemma SlashedNameUnreachable(m: Manager, c: Codec, topic: string, payload: seq<byte>, objName: string)
    requires '/' in objName
    requires OnMessage(m, c, topic, payload).Ok?
    ensures Get(OnMessage(m, c, topic, payload).value.objects, objName) == Get(m.objects, objName)
  {
    if Route(topic).Some? {
      RouteSlashFree(topic);
    }
  }

  /** The publications for one registered object: each listed attribute it has, in list order. */
  function PublishOne(objName: string, reg: Registration, c: Codec): seq<Event>
    decreases |reg.attributes|
  {
    if reg.attributes == [] then []
    else AttrPublication(objName, reg.obj, reg.attributes[0], c)
         + PublishOne(objName, reg.(attributes := reg.attributes[1..]), c)
  }

  /**
    The publications for one object are exactly those of its listed attributes
    it has: each event publishes one of them, and each of them is published.
   */
  lemma {:induction false} PublishOneMembers(objName: string, reg: Registration, c: Codec)
    ensures forall e :: e in PublishOne(objName, reg, c) ==>
      (e.Publish? && exists a :: a in reg.attributes && a in reg.obj && e == Publish(Join(objName, a), c.dump(reg.obj[a])))
    ensures forall a :: a in reg.attributes && a in reg.obj ==>
      Publish(Join(objName, a), c.dump(reg.obj[a])) in PublishOne(objName, reg, c)
    decreases |reg.attributes|
  {
    if reg.attributes != [] {
      var a := reg.attributes[0];
      var tail := reg.(attributes := reg.attributes[1..]);
      var own := AttrPublication(objName, reg.obj, a, c);
      var rest := PublishOne(objName, tail, c);
      PublishOneMembers(objName, tail, c);
      assert PublishOne(objName, reg, c) == own + rest;
      forall e | e in rest
        ensures exists b :: b in reg.attributes && b in reg.obj && e == Publish(Join(objName, b), c.dump(reg.obj[b]))
      {
        var b :| b in reg.attributes[1..] && b in reg.obj && e == Publish(Join(objName, b), c.dump(reg.obj[b]));
        assert b in reg.attributes;
      }
      forall b | b in reg.attributes && b in reg.obj
        ensures Publish(Join(objName, b), c.dump(reg.obj[b])) in own + rest
      {
        if b != a {
          assert b in reg.attributes[1..];
        }
      }
    }
  }

  /** What the tick sends for one listed attribute: its publish if the object has it, else nothing. */
  function AttrPublication(objName: string, obj: Instance, a: string, c: Codec): seq<Event> {
    if a in obj then [Publish(Join(objName, a), c.dump(obj[a]))] else []
  }

  /** The publications of an attribute list laid end to end are laid end to end. */
  lemma {:induction false} PublishOneConcat(objName: string, obj: Instance, as1: seq<string>, as2: seq<string>, c: Codec)
    ensures PublishOne(objName, Registration(obj, as1 + as2), c)
            == PublishOne(objName, Registration(obj, as1), c) + PublishOne(objName, Registration(obj, as2), c)
    decreases |as1|
  {
    if as1 == [] {
      assert as1 + as2 == as2;
    } else {
      assert (as1 + as2)[1..] == as1[1..] + as2;
      PublishOneConcat(objName, obj, as1[1..], as2, c);
    }
  }

  /**
    Within one object, `publish_attributes` follows the attribute list: the
    position-`j` attribute is published once (if the object has it), after the
    attributes listed before it and before those listed after it.
   */
  lemma PublishOneInOrder(objName: string, reg: Registration, c: Codec, j: nat)
    requires j < |reg.attributes|
    ensures PublishOne(objName, reg, c)
            == PublishOne(objName, reg.(attributes := reg.attributes[..j]), c)
               + AttrPublication(objName, reg.obj, reg.attributes[j], c)
               + PublishOne(objName, reg.(attributes := reg.attributes[j + 1..]), c)
  {
    var xs := reg.attributes;
    var before, item, after := xs[..j], [xs[j]], xs[j + 1..];
    SplitAround(xs, j);
    PublishOneConcat(objName, reg.obj, before, item + after, c);
    PublishOneConcat(objName, reg.obj, item, after, c);
    assert PublishOne(objName, Registration(reg.obj, item), c)
           == AttrPublication(objName, reg.obj, xs[j], c) + PublishOne(objName, Registration(reg.obj, []), c);
    assert reg == Registration(reg.obj, xs);
  }

  /** `e` publishes the current value of a listed attribute some item's object has. */
  ghost predicate IsPublicationOf(d: Dict<string, Registration>, c: Codec, e: Event) {
    exists n, reg, a :: (n, reg) in d && a in reg.attributes && a in reg.obj &&
                        e == Publish(Join(n, a), c.dump(reg.obj[a]))
  }

  /** The publications for every item of the registry, in dict order. */
  function PublishAll(d: Dict<string, Registration>, c: Codec): seq<Event> {
    if d == [] then [] else PublishOne(d[0].0, d[0].1, c) + PublishAll(d[1..], c)
  }

  /**
    The publications of a registry are exactly those of its items: each event
    publishes a listed attribute some item's object has, and each such
    attribute is published.
   */
  lemma {:induction false} PublishAllMembers(d: Dict<string, Registration>, c: Codec)
    ensures forall e :: e in PublishAll(d, c) ==> e.Publish? && IsPublicationOf(d, c, e)
    ensures forall n, reg, a :: (n, reg) in d && a in reg.attributes && a in reg.obj ==>
      Publish(Join(n, a), c.dump(reg.obj[a])) in PublishAll(d, c)
  {
    if d != [] {
      var head := PublishOne(d[0].0, d[0].1, c);
      var tail := PublishAll(d[1..], c);
      PublishOneMembers(d[0].0, d[0].1, c);
      PublishAllMembers(d[1..], c);
      assert PublishAll(d, c) == head + tail;
      forall e | e in head
        ensures IsPublicationOf(d, c, e)
      {
        var a :| a in d[0].1.attributes && a in d[0].1.obj && e == Publish(Join(d[0].0, a), c.dump(d[0].1.obj[a]));
        assert d[0] in d;
      }
      forall e | e in tail
        ensures IsPublicationOf(d, c, e)
      {
        var n, reg, a :| (n, reg) in d[1..] && a in reg.attributes && a in reg.obj &&
                         e == Publish(Join(n, a), c.dump(reg.obj[a]));
        assert (n, reg) in d;
      }
      forall n, reg, a | (n, reg) in d && a in reg.attributes && a in reg.obj
        ensures Publish(Join(n, a), c.dump(reg.obj[a])) in head + tail
      {
        if (n, reg) != d[0] {
          assert (n, reg) in d[1..];
        }
      }
    }
  }

  /**
    `publish_attributes`: one publish of `json.dumps(value)` to `"obj/attr"`
    for every registered attribute the object has, `None` included.
   */
  function PublishAttributes(m: Manager, c: Codec): (evs: seq<Event>)
    ensures Valid(m) ==> forall e :: e in evs ==>
      (e.Publish? && exists n, a :: Updatable(m, n, a) && e == Publish(Join(n, a), c.dump(AttrValue(m, n, a).value)))
    ensures forall n, a :: Updatable(m, n, a) ==>
      Publish(Join(n, a), c.dump(AttrValue(m, n, a).value)) in evs
  {
    var evs := PublishAll(m.objects, c);
    PublishAllMembers(m.objects, c);
    assert forall n, a :: Updatable(m, n, a) ==> Publish(Join(n, a), c.dump(AttrValue(m, n, a).value)) in evs by {
      forall n, a | Updatable(m, n, a)
        ensures Publish(Join(n, a), c.dump(AttrValue(m, n, a).value)) in evs
      {
        GetIsItem(m.objects, n);
      }
    }
    assert Valid(m) ==> forall e :: e in evs ==>
        exists n, a :: Updatable(m, n, a) && e == Publish(Join(n, a), c.dump(AttrValue(m, n, a).value)) by {
      if Valid(m) {
        forall e | e in evs
          ensures exists n, a :: Updatable(m, n, a) && e == Publish(Join(n, a), c.dump(AttrValue(m, n, a).value))
        {
          var n, reg, a :| (n, reg) in m.objects && a in reg.attributes && a in reg.obj &&
                           e == Publish(Join(n, a), c.dump(reg.obj[a]));
          ItemIffGet(m.objects, n, reg);
          assert Updatable(m, n, a);
        }
      }
    }
    evs
  }

  /** The publications of two registries laid end to end are laid end to end. */
  lemma {:induction false} PublishAllConcat(d1: Dict<string, Registration>, d2: Dict<string, Registration>, c: Codec)
    ensures PublishAll(d1 + d2, c) == PublishAll(d1, c) + PublishAll(d2, c)
  {
    if d1 == [] {
      assert d1 + d2 == d2;
    } else {
      assert (d1 + d2)[1..] == d1[1..] + d2;
      PublishAllConcat(d1[1..], d2, c);
    }
  }

  /**
    `publish_attributes` publishes in registry order: the publications for the
    object at position `i` come after those of every earlier object and before
    those of every later one.
   */
  lemma PublishAttributesInOrder(m: Manager, c: Codec, i: nat)
    requires i < |m.objects|
    ensures PublishAttributes(m, c) == PublishAll(m.objects[..i], c)
                                     + PublishOne(m.objects[i].0, m.objects[i].1, c)
                                     + PublishAll(m.objects[i + 1..], c)
  {
    var d := m.objects;
    var before, item, after := d[..i], [d[i]], d[i + 1..];
    assert d == before + item + after;
    assert PublishAttributes(m, c) == PublishAll(d, c);
    PublishAllConcat(before + item, after, c);
    PublishAllConcat(before, item, c);
    assert PublishAll(item, c) == PublishOne(d[i].0, d[i].1, c) + PublishAll([], c);
  }

  /**
    The whole tick, pinned position by position: the publication of the
    attribute at position `j` of the object at position `i` comes after every
    publication for earlier objects and earlier attributes of that object, and
    before every later one.
   */
  lemma PublishAttributesAt(m: Manager, c: Codec, i: nat, j: nat)
    requires i < |m.objects| && j < |m.objects[i].1.attributes|
    ensures PublishAttributes(m, c)
            == PublishAll(m.objects[..i], c)
               + PublishOne(m.objects[i].0, m.objects[i].1.(attributes := m.objects[i].1.attributes[..j]), c)
               + AttrPublication(m.objects[i].0, m.objects[i].1.obj, m.objects[i].1.attributes[j], c)
               + PublishOne(m.objects[i].0, m.objects[i].1.(attributes := m.objects[i].1.attributes[j + 1..]), c)
               + PublishAll(m.objects[i + 1..], c)
  {
    var n, reg := m.objects[i].0, m.objects[i].1;
    var before, after := PublishAll(m.objects[..i], c), PublishAll(m.objects[i + 1..], c);
    var earlier := PublishOne(n, reg.(attributes := reg.attributes[..j]), c);
    var own := AttrPublication(n, reg.obj, reg.attributes[j], c);
    var later := PublishOne(n, reg.(attributes := reg.attributes[j + 1..]), c);
    calc {
      PublishAttributes(m, c);
      { PublishAttributesInOrder(m, c, i); }
      before + PublishOne(n, reg, c) + after;
      { PublishOneInOrder(n, reg, c, j); }
      before + (earlier + own + later) + after;
      { RegroupMiddle(before, earlier, own, later, after); }
      before + earlier + own + later + after;
    }
  }

  /** Regrouping a concatenation whose middle part is itself a concatenation. */
  lemma RegroupMiddle<T>(a: seq<T>, b: seq<T>, x: seq<T>, d: seq<T>, e: seq<T>)
    ensures a + (b + x + d) + e == a + b + x + d + e
  {
  }

  /**
    A broker that echoes a publication back changes nothing: feeding
    `on_message` what `publish_attributes` sends for an attribute (every event
    it sends is of this form) yields the same registry, provided the codec
    round-trips the attribute's value. A name containing a slash makes the
    echo's topic unroutable, so it is ignored.
   */
  lemma EchoIsStable(m: Manager, c: Codec, n: string, a: string)
    requires Valid(m) && Updatable(m, n, a)
    requires RoundTrips(c, AttrValue(m, n, a).value)
    ensures var e := Publish(Join(n, a), c.dump(AttrValue(m, n, a).value));
            OnMessage(m, c, e.topic, c.encodeUtf8(e.payload)) == Ok(m)
  {
    if '/' in n || '/' in a {
      SlashedRouteNone(n, a);
    } else {
      var e := Publish(Join(n, a), c.dump(AttrValue(m, n, a).value));
      var reg := Get(m.objects, n).value;
      ItemIffGet(m.objects, n, reg);
      RouteJoin(n, a);
      assert Route(e.topic) == Some((n, a));
      DecodeDump(c, reg.obj[a]);
      assert reg.obj[a := reg.obj[a]] == reg.obj;
      assert reg.(obj := reg.obj[a := reg.obj[a]]) == reg;
      PutExisting(m.objects, n, reg);
      assert SetAttribute(m, n, a, reg.obj[a]) == m;
    }
  }
}

=== FILE: dicts.dfy ===
/**
  Python dictionaries as the model sees them: the ordered sequence of their
  `(key, value)` items. CPython iterates a dict in insertion order, assigning to
  an existing key keeps its position, and assigning to a new key appends it.
 */
module Dicts {
  import opened Wrappers

  /** The items of a dict, in iteration order. */
  type Dict<K, V> = seq<(K, V)>

  /** No key occurs twice; every dict the program builds has this shape. */
  ghost predicate DistinctKeys<K, V>(d: Dict<K, V>) {
    forall i, j :: 0 <= i < j < |d| ==> d[i].0 != d[j].0
  }

  /** The key set of `d` (`d.keys()` as a set). */
  function Keys<K, V>(d: Dict<K, V>): set<K> {
    if d == [] then {} else {d[0].0} + Keys(d[1..])
  }

  /** A key of `d` is exactly the key of one of its items. */
  lemma {:induction false} KeysByIndex<K, V>(d: Dict<K, V>)
    ensures forall i :: 0 <= i < |d| ==> d[i].0 in Keys(d)
    ensures forall k :: k in Keys(d) ==> exists i :: 0 <= i < |d| && d[i].0 == k
  {
    if d != [] {
      KeysByIndex(d[1..]);
      forall i | 1 <= i < |d|
        ensures d[i].0 in Keys(d)
      {
        assert d[1..][i - 1] == d[i];
      }
      forall k | k in Keys(d[1..])
        ensures exists i :: 0 <= i < |d| && d[i].0 == k
      {
        var j :| 0 <= j < |d[1..]| && d[1..][j].0 == k;
        assert d[j + 1].0 == k;
      }
    }
  }

  /** The keys of `d` in iteration order. */
  function KeyOrder<K, V>(d: Dict<K, V>): (ks: seq<K>)
    ensures |ks| == |d|
    ensures forall i :: 0 <= i < |d| ==> ks[i] == d[i].0
  {
    if d == [] then [] else [d[0].0] + KeyOrder(d[1..])
  }

  /** `d.get(k)`: the value bound to `k`, or None when `k` is not a key. */
  function Get<K(==), V>(d: Dict<K, V>, k: K): (r: Option<V>)
    ensures r.Some? <==> k in Keys(d)
  {
    if d == [] then None
    else if d[0].0 == k then Some(d[0].1)
    else Get(d[1..], k)
  }

  /** `d[k] = v`: overwrite in place when `k` is a key, append otherwise. */
  function Put<K(==,!new), V>(d: Dict<K, V>, k: K, v: V): (r: Dict<K, V>)
    ensures Get(r, k) == Some(v)
    ensures forall k' :: k' != k ==> Get(r, k') == Get(d, k')
    ensures Keys(r) == Keys(d) + {k}
    ensures k in Keys(d) ==> KeyOrder(r) == KeyOrder(d)
    ensures k !in Keys(d) ==> r == d + [(k, v)]
  {
    if d == [] then [(k, v)]
    else if d[0].0 == k then [(k, v)] + d[1..]
    else [d[0]] + Put(d[1..], k, v)
  }

  /**
    The index of the first item whose value is `v`: the reverse lookup
    `next((a for a, t in d.items() if t == v), None)`, by position.
   */
  function FindValue<K, V(==)>(d: Dict<K, V>, v: V): (r: Option<nat>)
    ensures r.Some? ==> r.value < |d| && d[r.value].1 == v
    ensures r.Some? ==> forall j :: 0 <= j < r.value ==> d[j].1 != v
    ensures r.None? ==> forall j :: 0 <= j < |d| ==> d[j].1 != v
  {
    if d == [] then None
    else if d[0].1 == v then Some(0)
    else match FindValue(d[1..], v)
      case None => None
      case Some(i) => Some(i + 1)
  }

  /** The key of the first item whose value is `v`, if any. */
  function KeyFor<K, V(==)>(d: Dict<K, V>, v: V): Option<K> {
    match FindValue(d, v)
    case None => None
    case Some(i) => Some(d[i].0)
  }

  /** What `Get` finds is an item of the dict. */
  lemma {:induction false} GetIsItem<K, V>(d: Dict<K, V>, k: K)
    requires Get(d, k).Some?
    ensures (k, Get(d, k).value) in d
  {
    if d[0].0 != k {
      GetIsItem(d[1..], k);
    }
  }

  /** Assigning to a key keeps the keys of a dict distinct. */
  lemma {:induction false} PutDistinct<K(!new), V>(d: Dict<K, V>, k: K, v: V)
    requires DistinctKeys(d)
    ensures DistinctKeys(Put(d, k, v))
  {
    if k !in Keys(d) {
      KeysByIndex(d);
      var r := d + [(k, v)];
      assert Put(d, k, v) == r;
      forall i, j | 0 <= i < j < |r|
        ensures r[i].0 != r[j].0
      {
        assert r[i] == d[i];
        if j == |d| {
          assert d[i].0 in Keys(d);
        } else {
          assert r[j] == d[j];
        }
      }
    } else {
      KeysByIndex(d);
      var i :| 0 <= i < |d| && d[i].0 == k;
      PutAt(d, k, v, i);
    }
  }

  /** Assigning to the key of item `i` replaces that item and nothing else. */
  lemma {:induction false} PutAt<K(!new), V>(d: Dict<K, V>, k: K, v: V, i: nat)
    requires DistinctKeys(d) && i < |d| && d[i].0 == k
    ensures Put(d, k, v) == d[i := (k, v)]
  {
    if i > 0 {
      assert d[0].0 != k;
      assert DistinctKeys(d[1..]) by {
        forall a, b | 0 <= a < b < |d[1..]|
          ensures d[1..][a].0 != d[1..][b].0
        {
          assert d[1..][a] == d[a + 1] && d[1..][b] == d[b + 1];
        }
      }
      PutAt(d[1..], k, v, i - 1);
      assert Put(d, k, v) == [d[0]] + Put(d[1..], k, v);
      assert d[i := (k, v)] == [d[0]] + d[1..][i - 1 := (k, v)];
    } else {
      assert Put(d, k, v) == [(k, v)] + d[1..];
      assert d[0 := (k, v)] == [(k, v)] + d[1..];
    }
  }

  /** In a dict with distinct keys, an item is present exactly when `Get` finds it. */
  lemma {:induction false} ItemIffGet<K, V>(d: Dict<K, V>, k: K, v: V)
    requires DistinctKeys(d)
    ensures (k, v) in d <==> Get(d, k) == Some(v)
  {
    if d != [] {
      assert DistinctKeys(d[1..]);
      ItemIffGet(d[1..], k, v);
      if d[0].0 == k {
        forall i | 0 <= i < |d[1..]|
          ensures d[1..][i].0 != k
        {
          assert d[1..][i] == d[i + 1];
        }
      } else {
        assert (k, v) in d <==> (k, v) in d[1..] by {
          if (k, v) in d { assert d[0] != (k, v); }
        }
      }
    }
  }

  /** Writing back the value a key already has leaves the dict unchanged. */
  lemma {:induction false} PutExisting<K(!new), V>(d: Dict<K, V>, k: K, v: V)
    requires Get(d, k) == Some(v)
    ensures Put(d, k, v) == d
  {
    assert d != [];
    if d[0].0 == k {
      assert d[0] == (k, v);
      assert Put(d, k, v) == [(k, v)] + d[1..];
    } else {
      assert Get(d[1..], k) == Some(v);
      PutExisting(d[1..], k, v);
      assert Put(d, k, v) == [d[0]] + d[1..];
    }
  }

  /** A sequence is what comes before position `i`, the item there, and what comes after. */
  lemma SplitAround<T>(s: seq<T>, i: nat)
    requires i < |s|
    ensures s == s[..i] + ([s[i]] + s[i + 1..])
  {
    assert s[..i] + ([s[i]] + s[i + 1..]) == s[..i] + s[i..];
  }

  /** The head and tail of a concatenation whose first part is not empty. */
  lemma ConcatHeadTail<T>(a: seq<T>, b: seq<T>)
    requires a != []
    ensures (a + b)[0] == a[0] && (a + b)[1..] == a[1..] + b
  {
  }

  /** Concatenation is associative. */
  lemma ConcatAssoc<T>(a: seq<T>, b: seq<T>, c: seq<T>)
    ensures a + (b + c) == a + b + c
  {
  }
}

=== FILE: engine_entity.dfy ===
/**
  `MQTTEngineEntity` (ppc1.py): a view over a shared `MQTTHandler`. The
  entity registers its own attribute-to-topic config with the handler; a write
  to one of its attributes updates the handler's store and publishes at once;
  a read of a name the instance never set falls back to the handler's store.
  Python's attribute hooks are modelled explicitly: `local` is the instance's
  own `__dict__`, which normal lookup consults before `__getattr__` runs.
 */
module EngineEntity {
  import opened Wrappers
  import opened Dicts
  import opened Json
  import opened Bus
  import opened SyncHandler

  /** An entity: its declared config and the attributes set on the instance. */
  datatype Entity = Entity(config: Dict<string, string>, local: map<string, Value>)

  /** The exception a read of an unknown name raises. */
  datatype Error = AttributeError(name: string)

  /** The instance slots holding the handler reference and the entity's config. */
  predicate IsReserved(name: string) {
    name == "handler" || name == "_config"
  }

  /** Every attribute the entity declares is configured on the handler. */
  ghost predicate Attached(e: Entity, h: Handler) {
    Keys(e.config) <= Keys(h.config)
  }

  /**
    The constructor: keep the config and register it with the handler through
    `add_config`, which resets and subscribes every declared attribute.
   */
  function New(h: Handler, config: Dict<string, string>): (r: (Entity, Handler, seq<Event>))
    ensures r.0.config == config && r.0.local == map[]
    ensures Attached(r.0, r.1)
    ensures KeysAgree(h) ==> KeysAgree(r.1)
    ensures |r.2| == |config|
    ensures forall i :: 0 <= i < |config| ==> r.2[i] == Subscribe(config[i].1)
    ensures forall a :: a in Keys(config) ==>
      a in r.1.data && r.1.data[a] == Null && a in r.1.lastUpdate && r.1.lastUpdate[a] == None
    ensures DistinctKeys(config) ==> forall a :: a in Keys(config) ==> Get(r.1.config, a) == Get(config, a)
    ensures forall a :: a !in Keys(config) ==> Get(r.1.config, a) == Get(h.config, a)
    ensures forall a :: a !in Keys(config) && a in h.data ==> a in r.1.data && r.1.data[a] == h.data[a]
    ensures forall a :: a !in Keys(config) && a in h.lastUpdate ==>
      a in r.1.lastUpdate && r.1.lastUpdate[a] == h.lastUpdate[a]
  {
    var (h', evs) := AddConfig(h, config);
    assert forall a :: a in Keys(config) ==>
        && a in h'.data && h'.data[a] == Null && a in h'.lastUpdate && h'.lastUpdate[a] == None
        && (DistinctKeys(config) ==> Get(h'.config, a) == Get(config, a)) by {
      forall a | a in Keys(config)
        ensures && a in h'.data && h'.data[a] == Null && a in h'.lastUpdate && h'.lastUpdate[a] == None
                && (DistinctKeys(config) ==> Get(h'.config, a) == Get(config, a))
      {
        AddConfigResets(h, config, a);
      }
    }
    assert forall a :: a !in Keys(config) ==>
        && Get(h'.config, a) == Get(h.config, a)
        && (a in h.data ==> a in h'.data && h'.data[a] == h.data[a])
        && (a in h.lastUpdate ==> a in h'.lastUpdate && h'.lastUpdate[a] == h.lastUpdate[a]) by {
      forall a | a !in Keys(config)
        ensures && Get(h'.config, a) == Get(h.config, a)
                && (a in h.data ==> a in h'.data && h'.data[a] == h.data[a])
                && (a in h.lastUpdate ==> a in h'.lastUpdate && h'.lastUpdate[a] == h.lastUpdate[a])
      {
        AddConfigFrame(h, config, a);
      }
    }
    (Entity(config, map[]), h', evs)
  }

  /**
    `__setattr__`: for a declared name, store the value in the handler's
    `data` and publish `json.dumps(value)` to the topic the handler binds the
    name to now (when that topic is not the falsy `""`); in every case set the
    attribute on the instance itself. The timestamp is left alone.
   */
  function SetAttr(e: Entity, h: Handler, c: Codec, name: string, value: Value): (r: (Entity, Handler, seq<Event>))
    requires !IsReserved(name)
    ensures r.0.config == e.config
    ensures name in r.0.local && r.0.local[name] == value
    ensures r.0.local.Keys == e.local.Keys + {name}
    ensures forall n :: n != name && n in e.local ==> n in r.0.local && r.0.local[n] == e.local[n]
    ensures r.1.config == h.config && r.1.lastUpdate == h.lastUpdate
    ensures forall n :: n != name && n in h.data ==> n in r.1.data && r.1.data[n] == h.data[n]
    ensures name in Keys(e.config) ==> name in r.1.data && r.1.data[name] == value
    ensures name in Keys(e.config) && Get(h.config, name).Some? && Get(h.config, name).value != "" ==>
              r.2 == [Publish(Get(h.config, name).value, c.dump(value))]
    ensures name in Keys(e.config) && (Get(h.config, name).None? || Get(h.config, name) == Some("")) ==> r.2 == []
    ensures name !in Keys(e.config) ==> r.1 == h && r.2 == []
    ensures Attached(e, h) ==> Attached(r.0, r.1)
    ensures KeysAgree(h) && Attached(e, h) ==> KeysAgree(r.1)
  {
    var e' := e.(local := e.local[name := value]);
    if name in Keys(e.config) then
      var h' := h.(data := h.data[name := value]);
      var evs := match Get(h.config, name)
        case Some(topic) => if topic != "" then [Publish(topic, c.dump(value))] else []
        case None => [];
      (e', h', evs)
    else (e', h, [])
  }

  /**
    Attribute read: normal lookup finds a name set on the instance; otherwise
    `__getattr__` returns the handler's stored value for any name the handler
    knows, and raises `AttributeError` for every other name.
   */
  function GetAttr(e: Entity, h: Handler, name: string): (r: Result<Value, Error>)
    requires !IsReserved(name)
    ensures r.Err? <==> name !in e.local && name !in h.data
    ensures r.Ok? && name !in e.local ==> r.value == h.data[name]
    ensures r.Ok? && name in e.local ==> r.value == e.local[name]
  {
    if name in e.local then Ok(e.local[name])
    else if name in h.data then Ok(h.data[name])
    else Err(AttributeError(name))
  }

  /**
    A local write shadows the handler: after setting `name` on the instance,
    reads return the written value whatever the handler's store holds later,
    for instance after any number of inbound messages.
   */
  lemma WriteShadowsLaterUpdates(e: Entity, h: Handler, c: Codec, name: string, value: Value, later: Handler)
    requires !IsReserved(name)
    ensures GetAttr(SetAttr(e, h, c, name, value).0, later, name) == Ok(value)
  {
  }

  /**
    Without a local write, an inbound message on the attribute's topic is what
    a read sees next.
   */
  lemma InboundVisibleWithoutLocalWrite(e: Entity, h: Handler, c: Codec, topic: string, payload: seq<byte>,
                                        now: Time, text: string)
    requires KeysAgree(h)
    requires c.decodeUtf8(payload) == Some(text)
    requires KeyFor(h.config, topic).Some? && KeyFor(h.config, topic).value != ""
    requires !IsReserved(KeyFor(h.config, topic).value) && KeyFor(h.config, topic).value !in e.local
    ensures GetAttr(e, OnMessage(h, c, topic, payload, now), KeyFor(h.config, topic).value) == Ok(Decode(c, text))
  {
  }

  /**
    Reads fall back to the shared store: an entity created first reads the
    (still unset) value of an attribute another entity registered later.
   */
  lemma ReadSeesOtherEntities(h: Handler, config1: Dict<string, string>, config2: Dict<string, string>, name: string)
    requires KeysAgree(h)
    requires name in Keys(config2) && !IsReserved(name)
    ensures var (e1, h1, _) := New(h, config1);
            var (e2, h2, _) := New(h1, config2);
            GetAttr(e1, h2, name) == Ok(Null)
  {
    var (e1, h1, _) := New(h, config1);
    AddConfigResets(h1, config2, name);
  }

  /**
    A write publishes to the handler's current binding: when a later entity
    registers the same name under another topic, the earlier entity's write
    goes to the later topic.
   */
  lemma WriteUsesLatestBinding(h: Handler, c: Codec, config1: Dict<string, string>, config2: Dict<string, string>,
                               name: string, topic2: string, value: Value)
    requires name in Keys(config1) && !IsReserved(name)
    requires DistinctKeys(config2) && Get(config2, name) == Some(topic2) && topic2 != ""
    ensures var (e1, h1, _) := New(h, config1);
            var (e2, h2, _) := New(h1, config2);
            SetAttr(e1, h2, c, name, value).2 == [Publish(topic2, c.dump(value))]
  {
    var (e1, h1, _) := New(h, config1);
    assert name in Keys(config2);
    AddConfigResets(h1, config2, name);
  }

  /**
    The invariant of the shared handler: the constructors of handler and
    entities, `add_config`, `on_message` and entity writes all keep `data`
    and `last_update_time` keyed by exactly the configured attributes.
   */
  lemma KeysAgreeInvariant(h: Handler, e: Entity, c: Codec, config: Dict<string, string>,
                           topic: string, payload: seq<byte>, now: Time, name: string, value: Value)
    requires KeysAgree(h) && Attached(e, h) && !IsReserved(name)
    ensures KeysAgree(InitOptional(None))
    ensures KeysAgree(AddConfig(h, config).0)
    ensures KeysAgree(OnMessage(h, c, topic, payload, now))
    ensures KeysAgree(New(h, config).1)
    ensures KeysAgree(SetAttr(e, h, c, name, value).1)
  {
  }
}

=== FILE: json.dfy ===
/**
  Payload values and the wire codec. The JSON library and UTF-8 decoding are
  external: a `Codec` carries them as four total functions. The only payload
  logic of the repository itself is the fallback to the raw text when the text
  is not JSON.
 */
module Json {
  import opened Wrappers

  newtype byte = b: int | 0 <= b < 256

  /**
    A decoded payload. `Null` is both JSON `null` and Python's `None`, which
    `json.loads("null")` returns and which an unset attribute holds. An object
    is a map from member name to value, as the Python dict `json.loads` builds:
    each name occurs once (the last of repeated names wins), and dict equality
    ignores member order.
   */
  datatype Value =
    | Null
    | Bool(b: bool)
    | Num(n: real)
    | Str(s: string)
    | Arr(items: seq<Value>)
    | Obj(members: map<string, Value>)

  /** `bytes.decode("utf-8")`, `str.encode("utf-8")`, `json.loads`, `json.dumps`. */
  datatype Codec = Codec(
    decodeUtf8: seq<byte> -> Option<string>,
    encodeUtf8: string -> seq<byte>,
    parse: string -> Option<Value>,
    dump: Value -> string)

  /**
    The codec carries `v` through a broker echo: the text `json.dumps` writes
    for `v` comes back unchanged from UTF-8 encoding and decoding, and
    `json.loads` reads that text back as `v`. This is a law about one value,
    not about all of them, which Python's codec meets for every value it can
    write back exactly.
   */
  predicate RoundTrips(c: Codec, v: Value) {
    && c.decodeUtf8(c.encodeUtf8(c.dump(v))) == Some(c.dump(v))
    && c.parse(c.dump(v)) == Some(v)
  }

  /**
    The inbound payload rule: the JSON value of `text` when it parses,
    otherwise the text itself as a string.
   */
  function Decode(c: Codec, text: string): Value {
    match c.parse(text)
    case Some(v) => v
    case None => Str(text)
  }

  /** Decoding never fails: non-JSON text comes back as itself. */
  lemma RawTextFallback(c: Codec, text: string)
    requires c.parse(text).None?
    ensures Decode(c, text) == Str(text)
  {
  }

  /** For a value the codec round-trips, decoding what `json.dumps` produced restores the value. */
  lemma DecodeDump(c: Codec, v: Value)
    requires RoundTrips(c, v)
    ensures Decode(c, c.dump(v)) == v
  {
  }
}

=== FILE: sync_handler.dfy ===
/**
  `MQTTHandler` (ppc.py, and the same class grown by `add_config` in
  ppc1.py): a flat attribute-to-topic config, the store `data` of the latest
  value per attribute, and `last_update_time` per attribute. The callbacks
  `on_connect` and `on_message` are the same in both files apart from the
  name of the config field (`self.config` in ppc.py, `self._config` in ppc1.py).
 */
module SyncHandler {
  import opened Wrappers
  import opened Dicts
  import opened Json
  import opened Bus

  /** A reading of the clock, passed in by the caller of `on_message`. */
  type Time = int

  /** The handler's state; `None`/unset is `Null` in `data` and `None` in `lastUpdate`. */
  datatype Handler = Handler(
    config: Dict<string, string>,
    data: map<string, Value>,
    lastUpdate: map<string, Option<Time>>)

  /** `data` and `last_update_time` are keyed by exactly the configured attributes. */
  ghost predicate KeysAgree(h: Handler) {
    h.data.Keys == Keys(h.config) && h.lastUpdate.Keys == Keys(h.config)
  }

  /** The config is a dict and the key sets agree. */
  ghost predicate Valid(h: Handler) {
    DistinctKeys(h.config) && KeysAgree(h)
  }

  /**
    The constructor of ppc.py: take the config, and key `data` and
    `last_update_time` by its attributes, every entry unset.
   */
  function Init(config: Dict<string, string>): (h: Handler)
    requires DistinctKeys(config)
    ensures Valid(h)
    ensures h.config == config
    ensures forall a :: a in h.data ==> h.data[a] == Null
    ensures forall a :: a in h.lastUpdate ==> h.lastUpdate[a] == None
  {
    Handler(config, map a | a in Keys(config) :: Null, map a | a in Keys(config) :: None)
  }

  /**
    The constructor of ppc1.py: `listen_publish_config or {}`, so a missing
    config gives an empty handler, and an empty one is that same empty dict.
   */
  function InitOptional(config: Option<Dict<string, string>>): (h: Handler)
    requires config.Some? ==> DistinctKeys(config.value)
    ensures Valid(h)
    ensures config.None? ==> h.config == [] && h.data == map[] && h.lastUpdate == map[]
    ensures config.Some? ==> h.config == config.value
    ensures forall a :: a in h.data ==> h.data[a] == Null
    ensures forall a :: a in h.lastUpdate ==> h.lastUpdate[a] == None
  {
    match config
    case None => Init([])
    case Some(d) => Init(d)
  }

  /** One `subscribe` per configured topic, in config order. */
  function SubscribeTopics(config: Dict<string, string>): (evs: seq<Event>)
    ensures |evs| == |config|
    ensures forall i :: 0 <= i < |config| ==> evs[i] == Subscribe(config[i].1)
  {
    if config == [] then [] else [Subscribe(config[0].1)] + SubscribeTopics(config[1..])
  }

  /** `on_connect`: subscribe to every configured topic in config order, whatever `rc` is. */
  function OnConnect(h: Handler, rc: int): (evs: seq<Event>)
    ensures |evs| == |h.config|
    ensures forall i :: 0 <= i < |h.config| ==> evs[i] == Subscribe(h.config[i].1)
  {
    SubscribeTopics(h.config)
  }

  /**
    `on_message`: decode the payload as UTF-8 (a failure is caught and nothing
    changes), take its JSON value or else the raw text, find the first
    attribute in config order bound to the topic, and unless there is none or
    its name is the falsy `""`, store the value and stamp the time.
   */
  function OnMessage(h: Handler, c: Codec, topic: string, payload: seq<byte>, now: Time): (r: Handler)
    ensures r.config == h.config
    ensures c.decodeUtf8(payload).None? ==> r == h
    ensures KeyFor(h.config, topic).None? ==> r == h
    ensures KeyFor(h.config, topic) == Some("") ==> r == h
    ensures KeysAgree(h) ==> KeysAgree(r)
    ensures forall a :: a in h.data && Some(a) != KeyFor(h.config, topic) ==> a in r.data && r.data[a] == h.data[a]
    ensures forall a :: a in h.lastUpdate && Some(a) != KeyFor(h.config, topic) ==>
                          a in r.lastUpdate && r.lastUpdate[a] == h.lastUpdate[a]
    ensures c.decodeUtf8(payload).Some? && KeyFor(h.config, topic).Some? && KeyFor(h.config, topic) != Some("") ==>
              var a := KeyFor(h.config, topic).value;
              && a in r.data && r.data[a] == Decode(c, c.decodeUtf8(payload).value)
              && a in r.lastUpdate && r.lastUpdate[a] == Some(now)
  {
    match c.decodeUtf8(payload)
    case None => h
    case Some(text) =>
      var value := Decode(c, text);
      match KeyFor(h.config, topic)
      case None => h
      case Some(a) =>
        if a != "" then
          assert a in Keys(h.config) by { KeysByIndex(h.config); }
          h.(data := h.data[a := value], lastUpdate := h.lastUpdate[a := Some(now)])
        else h
  }

  /**
    First match wins: when attributes `i < j` share the topic, an inbound
    message on it never changes the later attribute's value or timestamp.
   */
  lemma FirstMatchWins(h: Handler, c: Codec, payload: seq<byte>, now: Time, i: nat, j: nat)
    requires DistinctKeys(h.config)
    requires i < j < |h.config| && h.config[i].1 == h.config[j].1
    requires h.config[j].0 in h.data && h.config[j].0 in h.lastUpdate
    ensures var r := OnMessage(h, c, h.config[j].1, payload, now);
            r.data[h.config[j].0] == h.data[h.config[j].0]
            && r.lastUpdate[h.config[j].0] == h.lastUpdate[h.config[j].0]
  {
    var k := FindValue(h.config, h.config[j].1);
    assert k.Some? && k.value <= i;
  }

  /**
    One pass of the `publish_background` loop: publish `json.dumps(value)` to
    each configured topic, in config order, whose value is not `None`.
   */
  function PublishTick(h: Handler, c: Codec): seq<Event>
    decreases |h.config|
  {
    if h.config == [] then []
    else ItemPublication(h, c, h.config[0].0, h.config[0].1) + PublishTick(h.(config := h.config[1..]), c)
  }

  /**
    The publications of a tick are exactly the non-`None` values: each event
    publishes the value of a configured attribute to its topic, and every
    configured attribute whose value is not `None` is published.
   */
  lemma {:induction false} PublishTickMembers(h: Handler, c: Codec)
    ensures forall e :: e in PublishTick(h, c) ==> e.Publish? && PublishedItem(h, c, e)
    ensures forall i :: 0 <= i < |h.config| && h.config[i].0 in h.data && h.data[h.config[i].0] != Null ==>
      Publish(h.config[i].1, c.dump(h.data[h.config[i].0])) in PublishTick(h, c)
    decreases |h.config|
  {
    if h.config != [] {
      var (a, t) := h.config[0];
      var tail := h.(config := h.config[1..]);
      var rest := PublishTick(tail, c);
      PublishTickMembers(tail, c);
      assert PublishTick(h, c) == ItemPublication(h, c, a, t) + rest;
      forall e | e in rest
        ensures PublishedItem(h, c, e)
      {
        var i :| 0 <= i < |tail.config| && Published(tail, c, i, e);
        assert tail.config[i] == h.config[i + 1];
        assert Published(h, c, i + 1, e);
      }
      forall i | 1 <= i < |h.config| && h.config[i].0 in h.data && h.data[h.config[i].0] != Null
        ensures Publish(h.config[i].1, c.dump(h.data[h.config[i].0])) in rest
      {
        assert tail.config[i - 1] == h.config[i];
      }
      assert forall e :: e in ItemPublication(h, c, a, t) ==> Published(h, c, 0, e);
    }
  }

  /** What a tick sends for the item `attr -> topic`: its publish if the value is not `None`, else nothing. */
  function ItemPublication(h: Handler, c: Codec, attr: string, topic: string): seq<Event> {
    if attr in h.data && h.data[attr] != Null then [Publish(topic, c.dump(h.data[attr]))] else []
  }

  /** The tick over two configs laid end to end is the two ticks laid end to end. */
  lemma {:induction false} PublishTickConcat(h: Handler, c: Codec, d1: Dict<string, string>, d2: Dict<string, string>)
    ensures PublishTick(h.(config := d1 + d2), c) == PublishTick(h.(config := d1), c) + PublishTick(h.(config := d2), c)
    decreases |d1|
  {
    if d1 == [] {
      assert d1 + d2 == d2;
    } else {
      var own := ItemPublication(h, c, d1[0].0, d1[0].1);
      var rest1, rest2 := PublishTick(h.(config := d1[1..]), c), PublishTick(h.(config := d2), c);
      ConcatHeadTail(d1, d2);
      assert PublishTick(h.(config := d1 + d2), c) == own + PublishTick(h.(config := d1[1..] + d2), c);
      PublishTickConcat(h, c, d1[1..], d2);
      assert PublishTick(h.(config := d1), c) == own + rest1;
      ConcatAssoc(own, rest1, rest2);
    }
  }

  /**
    A tick publishes in config order: the item at position `i` is published
    once (if its value is not `None`), after every earlier item and before
    every later one.
   */
  lemma PublishTickInOrder(h: Handler, c: Codec, i: nat)
    requires i < |h.config|
    ensures PublishTick(h, c)
            == PublishTick(h.(config := h.config[..i]), c)
               + ItemPublication(h, c, h.config[i].0, h.config[i].1)
               + PublishTick(h.(config := h.config[i + 1..]), c)
  {
    var d := h.config;
    var before, item, after := d[..i], [d[i]], d[i + 1..];
    var own := ItemPublication(h, c, d[i].0, d[i].1);
    calc {
      PublishTick(h, c);
      { SplitAround(d, i); assert h == h.(config := before + (item + after)); }
      PublishTick(h.(config := before + (item + after)), c);
      { PublishTickConcat(h, c, before, item + after); }
      PublishTick(h.(config := before), c) + PublishTick(h.(config := item + after), c);
      { PublishTickConcat(h, c, item, after);
        assert PublishTick(h.(config := item), c) == own + PublishTick(h.(config := []), c); }
      PublishTick(h.(config := before), c) + (own + PublishTick(h.(config := after), c));
      PublishTick(h.(config := before), c) + own + PublishTick(h.(config := after), c);
    }
  }

  /** `e` is what publishing the attribute of item `i` sends: its non-`None` value, dumped. */
  predicate Published(h: Handler, c: Codec, i: nat, e: Event)
    requires i < |h.config|
  {
    var a := h.config[i].0;
    a in h.data && h.data[a] != Null && e == Publish(h.config[i].1, c.dump(h.data[a]))
  }

  /** `e` is what publishing some configured attribute sends. */
  ghost predicate PublishedItem(h: Handler, c: Codec, e: Event) {
    exists i :: 0 <= i < |h.config| && Published(h, c, i, e)
  }

  /** The number of publications of a tick is the number of configured attributes not `None`. */
  function CountSet(h: Handler): nat
    decreases |h.config|
  {
    if h.config == [] then 0
    else (if h.config[0].0 in h.data && h.data[h.config[0].0] != Null then 1 else 0)
         + CountSet(h.(config := h.config[1..]))
  }

  /** A tick publishes exactly once per configured attribute that is not `None`. */
  lemma {:induction false} PublishTickCount(h: Handler, c: Codec)
    ensures |PublishTick(h, c)| == CountSet(h)
    decreases |h.config|
  {
    if h.config != [] {
      PublishTickCount(h.(config := h.config[1..]), c);
    }
  }

  /** One entry of `add_config`: bind `attr` to `topic` and reset its value and timestamp. */
  function Register(h: Handler, attr: string, topic: string): (r: Handler)
    ensures Keys(r.config) == Keys(h.config) + {attr}
    ensures attr in Keys(h.config) ==> KeyOrder(r.config) == KeyOrder(h.config)
    ensures attr !in Keys(h.config) ==> r.config == h.config + [(attr, topic)]
    ensures KeysAgree(h) ==> KeysAgree(r)
  {
    var r := Handler(Put(h.config, attr, topic), h.data[attr := Null], h.lastUpdate[attr := None]);
    assert KeysAgree(h) ==> KeysAgree(r) by {
      assert r.data.Keys == h.data.Keys + {attr};
      assert r.lastUpdate.Keys == h.lastUpdate.Keys + {attr};
    }
    r
  }

  /** One entry of `add_config` keeps the config a dict: `attr` is bound once, even when it was bound before. */
  lemma RegisterDistinct(h: Handler, attr: string, topic: string)
    requires DistinctKeys(h.config)
    ensures DistinctKeys(Register(h, attr, topic).config)
  {
    PutDistinct(h.config, attr, topic);
  }

  /**
    What one entry of `add_config` does to bindings and values: `attr` is bound
    to `topic` with value and timestamp `None`, and every other attribute keeps
    its binding, value and timestamp.
   */
  lemma RegisterEffect(h: Handler, attr: string, topic: string, other: string)
    requires other != attr
    ensures var r := Register(h, attr, topic);
            && Get(r.config, attr) == Some(topic)
            && r.data[attr] == Null && r.lastUpdate[attr] == None
            && Get(r.config, other) == Get(h.config, other)
            && (other in h.data ==> other in r.data && r.data[other] == h.data[other])
            && (other in h.lastUpdate ==> other in r.lastUpdate && r.lastUpdate[other] == h.lastUpdate[other])
  {
  }

  /**
    `add_config`: for each entry in order, bind the attribute to its topic
    (overwriting), reset its value and timestamp to `None` even when they were
    set, and subscribe to the topic whether or not the client is connected.
   */
  function AddConfig(h: Handler, newConfig: Dict<string, string>): (r: (Handler, seq<Event>))
    ensures Keys(r.0.config) == Keys(h.config) + Keys(newConfig)
    ensures KeysAgree(h) ==> KeysAgree(r.0)
    ensures |r.1| == |newConfig|
    ensures forall i :: 0 <= i < |newConfig| ==> r.1[i] == Subscribe(newConfig[i].1)
    decreases |newConfig|
  {
    if newConfig == [] then (h, [])
    else
      var (a, t) := newConfig[0];
      var (h2, evs) := AddConfig(Register(h, a, t), newConfig[1..]);
      assert Keys(h2.config) == Keys(h.config) + Keys(newConfig) by {
        assert Keys(newConfig) == {a} + Keys(newConfig[1..]);
      }
      assert forall i :: 1 <= i < |newConfig| ==> evs[i - 1] == Subscribe(newConfig[i].1) by {
        forall i | 1 <= i < |newConfig|
          ensures evs[i - 1] == Subscribe(newConfig[i].1)
        {
          assert newConfig[1..][i - 1] == newConfig[i];
        }
      }
      (h2, [Subscribe(t)] + evs)
  }

  /** `add_config` handles its entries one after another: two configs laid end to end are two calls. */
  lemma {:induction false} AddConfigSequential(h: Handler, n1: Dict<string, string>, n2: Dict<string, string>)
    ensures AddConfig(h, n1 + n2).0 == AddConfig(AddConfig(h, n1).0, n2).0
    ensures AddConfig(h, n1 + n2).1 == AddConfig(h, n1).1 + AddConfig(AddConfig(h, n1).0, n2).1
    decreases |n1|
  {
    if n1 == [] {
      assert n1 + n2 == n2;
      assert AddConfig(h, n1) == (h, []);
      assert [] + AddConfig(h, n2).1 == AddConfig(h, n2).1;
    } else {
      var h0 := Register(h, n1[0].0, n1[0].1);
      var rest1 := AddConfig(h0, n1[1..]);
      var rest2 := AddConfig(rest1.0, n2);
      AddConfigSequential(h0, n1[1..], n2);
      AddConfigStep(h, n1);
      AddConfigStep(h, n1 + n2);
      ConcatHeadTail(n1, n2);
      ConcatAssoc([Subscribe(n1[0].1)], rest1.1, rest2.1);
    }
  }

  /** One step of `add_config`: register the first entry, then handle the rest. */
  lemma AddConfigStep(h: Handler, newConfig: Dict<string, string>)
    requires newConfig != []
    ensures var rest := AddConfig(Register(h, newConfig[0].0, newConfig[0].1), newConfig[1..]);
            AddConfig(h, newConfig).0 == rest.0 && AddConfig(h, newConfig).1 == [Subscribe(newConfig[0].1)] + rest.1
  {
  }

  /**
    `add_config` never moves an attribute: every attribute already configured
    keeps its position, rebound or not, so on_connect order and first-match
    routing among them are as before.
   */
  lemma {:induction false} AddConfigKeepsPositions(h: Handler, newConfig: Dict<string, string>)
    ensures |h.config| <= |AddConfig(h, newConfig).0.config|
    ensures forall i :: 0 <= i < |h.config| ==> AddConfig(h, newConfig).0.config[i].0 == h.config[i].0
    decreases |newConfig|
  {
    if newConfig != [] {
      var h1 := Register(h, newConfig[0].0, newConfig[0].1);
      AddConfigKeepsPositions(h1, newConfig[1..]);
      assert forall i :: 0 <= i < |h.config| ==> h1.config[i].0 == h.config[i].0 by {
        if newConfig[0].0 !in Keys(h.config) {
          assert h1.config == h.config + [newConfig[0]];
        }
      }
    }
  }

  /** What `add_config` appends to the config are attributes it was given that were not configured before. */
  lemma {:induction false} AddConfigAppendsNew(h: Handler, newConfig: Dict<string, string>)
    ensures var r := AddConfig(h, newConfig).0;
            forall i :: |h.config| <= i < |r.config| ==>
              r.config[i].0 !in Keys(h.config) && r.config[i].0 in Keys(newConfig)
    decreases |newConfig|
  {
    if newConfig != [] {
      var (a, t) := newConfig[0];
      var h1 := Register(h, a, t);
      var r := AddConfig(h, newConfig).0;
      assert r == AddConfig(h1, newConfig[1..]).0;
      AddConfigAppendsNew(h1, newConfig[1..]);
      AddConfigKeepsPositions(h1, newConfig[1..]);
      forall i | |h.config| <= i < |r.config|
        ensures r.config[i].0 !in Keys(h.config) && r.config[i].0 in Keys(newConfig)
      {
        if i < |h1.config| {
          assert a !in Keys(h.config) && h1.config == h.config + [(a, t)];
          assert r.config[i].0 == h1.config[i].0 == a;
        } else {
          assert r.config[i].0 in Keys(newConfig[1..]);
        }
      }
    }
  }

  /** `add_config` keeps the config a dict: no attribute is bound twice. */
  lemma {:induction false} AddConfigDistinct(h: Handler, newConfig: Dict<string, string>)
    requires DistinctKeys(h.config)
    ensures DistinctKeys(AddConfig(h, newConfig).0.config)
    decreases |newConfig|
  {
    if newConfig != [] {
      RegisterDistinct(h, newConfig[0].0, newConfig[0].1);
      AddConfigDistinct(Register(h, newConfig[0].0, newConfig[0].1), newConfig[1..]);
    }
  }

  /** The first key of a dict with distinct keys does not occur again in its tail. */
  lemma HeadKeyNotInTail<V>(d: Dict<string, V>)
    requires d != [] && DistinctKeys(d)
    ensures d[0].0 !in Keys(d[1..]) && DistinctKeys(d[1..])
  {
    forall i | 0 <= i < |d[1..]|
      ensures d[1..][i].0 != d[0].0
    {
      assert d[1..][i] == d[i + 1];
    }
    KeysByIndex(d[1..]);
  }

  /**
    After `add_config`, every attribute it names has value and timestamp
    `None`, and (the argument being a dict) is bound to the topic it gave.
   */
  lemma {:induction false} AddConfigResets(h: Handler, newConfig: Dict<string, string>, a: string)
    requires a in Keys(newConfig)
    ensures var r := AddConfig(h, newConfig).0;
            a in r.data && r.data[a] == Null && a in r.lastUpdate && r.lastUpdate[a] == None
    ensures DistinctKeys(newConfig) ==> Get(AddConfig(h, newConfig).0.config, a) == Get(newConfig, a)
    decreases |newConfig|
  {
    var (b, t) := newConfig[0];
    var h1 := Register(h, b, t);
    if a in Keys(newConfig[1..]) {
      AddConfigResets(h1, newConfig[1..], a);
      if DistinctKeys(newConfig) {
        HeadKeyNotInTail(newConfig);
      }
    } else {
      assert a == b;
      AddConfigFrame(h1, newConfig[1..], a);
    }
  }

  /** `add_config` leaves the binding, value and timestamp of every other attribute as they were. */
  lemma {:induction false} AddConfigFrame(h: Handler, newConfig: Dict<string, string>, a: string)
    requires a !in Keys(newConfig)
    ensures var r := AddConfig(h, newConfig).0;
            && Get(r.config, a) == Get(h.config, a)
            && (a in h.data ==> a in r.data && r.data[a] == h.data[a])
            && (a in h.lastUpdate ==> a in r.lastUpdate && r.lastUpdate[a] == h.lastUpdate[a])
    decreases |newConfig|
  {
    if newConfig != [] {
      var (b, t) := newConfig[0];
      assert a != b;
      AddConfigFrame(Register(h, b, t), newConfig[1..], a);
    }
  }

  /** `add_config` on a fresh handler makes the config exactly the given one. */
  lemma {:induction false} AddConfigFresh(h: Handler, newConfig: Dict<string, string>)
    requires DistinctKeys(h.config + newConfig)
    ensures AddConfig(h, newConfig).0.config == h.config + newConfig
    decreases |newConfig|
  {
    if newConfig != [] {
      var (a, t) := newConfig[0];
      NextKeyIsFresh(h.config, newConfig);
      var h1 := Register(h, a, t);
      assert h1.config == h.config + [(a, t)];
      assert h1.config + newConfig[1..] == h.config + newConfig;
      AddConfigFresh(h1, newConfig[1..]);
    }
  }

  /** In a dict laid out as `d1 + d2`, the first key of `d2` is not a key of `d1`. */
  lemma NextKeyIsFresh(d1: Dict<string, string>, d2: Dict<string, string>)
    requires d2 != [] && DistinctKeys(d1 + d2)
    ensures d2[0].0 !in Keys(d1)
  {
    forall i | 0 <= i < |d1|
      ensures d1[i].0 != d2[0].0
    {
      assert (d1 + d2)[i] == d1[i];
      assert (d1 + d2)[|d1|] == d2[0];
    }
    KeysByIndex(d1);
  }

  /**
    Reconnect re-subscribes what registration subscribed: after registering a
    config on a fresh handler, `on_connect` subscribes to the same topics in
    the same order as the `add_config` calls did.
   */
  lemma ReconnectMatchesRegistration(newConfig: Dict<string, string>, rc: int)
    requires DistinctKeys(newConfig)
    ensures var (h, evs) := AddConfig(InitOptional(None), newConfig);
            OnConnect(h, rc) == evs
  {
    assert [] + newConfig == newConfig;
    AddConfigFresh(InitOptional(None), newConfig);
  }

  /** Each topic is bound to at most one attribute. */
  ghost predicate TopicsDistinct(h: Handler) {
    forall i, j :: 0 <= i < j < |h.config| ==> h.config[i].1 != h.config[j].1
  }

  /**
    With one attribute per topic and a codec that round-trips every stored
    value, a broker echoing a publication of a tick back to `on_message`
    leaves every value as it was.
   */
  lemma EchoKeepsData(h: Handler, c: Codec, e: Event, now: Time)
    requires Valid(h) && TopicsDistinct(h)
    requires forall a :: a in h.data ==> RoundTrips(c, h.data[a])
    requires e in PublishTick(h, c)
    ensures e.Publish? && OnMessage(h, c, e.topic, c.encodeUtf8(e.payload), now).data == h.data
  {
    PublishTickMembers(h, c);
    var i :| 0 <= i < |h.config| && Published(h, c, i, e);
    var a := h.config[i].0;
    UniqueTopicFound(h, i);
    assert c.decodeUtf8(c.encodeUtf8(e.payload)) == Some(e.payload);
    DecodeDump(c, h.data[a]);
    StoreSameValue(h, c, e.topic, c.encodeUtf8(e.payload), now, a, e.payload);
  }

  /** With one attribute per topic, the reverse lookup of item `i`'s topic finds item `i`. */
  lemma UniqueTopicFound(h: Handler, i: nat)
    requires TopicsDistinct(h) && i < |h.config|
    ensures KeyFor(h.config, h.config[i].1) == Some(h.config[i].0)
  {
    assert FindValue(h.config, h.config[i].1) == Some(i);
  }

  /** A message routed to `a` whose payload decodes to the value `a` already holds keeps `data`. */
  lemma StoreSameValue(h: Handler, c: Codec, topic: string, payload: seq<byte>, now: Time, a: string, text: string)
    requires KeyFor(h.config, topic) == Some(a) && c.decodeUtf8(payload) == Some(text)
    requires a in h.data && Decode(c, text) == h.data[a]
    ensures OnMessage(h, c, topic, payload, now).data == h.data
  {
    if a != "" {
      assert h.data[a := h.data[a]] == h.data;
    }
  }

  /**
    Why topics must be distinct: when attribute `i` is the first bound to a
    topic that a later attribute `j` shares, the echo of `j`'s publication is
    stored into attribute `i`.
   */
  lemma SharedTopicCrossTalk(h: Handler, c: Codec, now: Time, i: nat, j: nat)
    requires i < j < |h.config|
    requires h.config[i].1 == h.config[j].1 && h.config[i].0 != ""
    requires forall k :: 0 <= k < i ==> h.config[k].1 != h.config[i].1
    requires h.config[j].0 in h.data && h.data[h.config[j].0] != Null
    requires RoundTrips(c, h.data[h.config[j].0])
    ensures var e := Publish(h.config[j].1, c.dump(h.data[h.config[j].0]));
            var r := OnMessage(h, c, e.topic, c.encodeUtf8(e.payload), now);
            && e in PublishTick(h, c)
            && h.config[i].0 in r.data && r.data[h.config[i].0] == h.data[h.config[j].0]
  {
    var v := h.data[h.config[j].0];
    var e := Publish(h.config[j].1, c.dump(v));
    PublishTickMembers(h, c);
    assert FindValue(h.config, e.topic) == Some(i);
    assert c.decodeUtf8(c.encodeUtf8(e.payload)) == Some(e.payload);
    DecodeDump(c, v);
  }
}

=== FILE: topics.dfy ===
/**
  The `"obj/attr"` topic convention of the object registry, and Python's
  `str.split('/')` which routes an inbound topic back to an object and an
  attribute.
 */
module Topics {
  import opened Wrappers

  /** `f"{objName}/{attr}"`. */
  function Join(objName: string, attr: string): string {
    objName + "/" + attr
  }

  /**
    `s.split('/')`: the maximal slash-free pieces of `s`, empty pieces
    included, so there is always at least one.
   */
  function Split(s: string): (parts: seq<string>)
    ensures |parts| >= 1
    ensures forall i :: 0 <= i < |parts| ==> '/' !in parts[i]
  {
    if |s| == 0 then [""]
    else
      var rest := Split(s[1..]);
      if s[0] == '/' then [""] + rest
      else [[s[0]] + rest[0]] + rest[1..]
  }

  /** `"/".join(parts)`. */
  function JoinAll(parts: seq<string>): string
    requires |parts| >= 1
  {
    if |parts| == 1 then parts[0] else parts[0] + "/" + JoinAll(parts[1..])
  }

  /**
    How an inbound topic is routed: to `(obj_name, attr_name)` when it splits
    into exactly two pieces, nowhere otherwise.
   */
  function Route(topic: string): Option<(string, string)> {
    var parts := Split(topic);
    if |parts| == 2 then Some((parts[0], parts[1])) else None
  }

  /** Joining the pieces of a split with `/` gives back the original string. */
  lemma {:induction false} JoinAllSplit(s: string)
    ensures JoinAll(Split(s)) == s
  {
    if |s| > 0 {
      var rest := Split(s[1..]);
      JoinAllSplit(s[1..]);
      if s[0] == '/' {
        assert Split(s)[1..] == rest;
        assert s == "/" + s[1..];
      } else if |rest| == 1 {
        assert s == [s[0]] + s[1..];
      } else {
        var parts := Split(s);
        assert parts[1..] == rest[1..];
        assert JoinAll(rest) == rest[0] + "/" + JoinAll(rest[1..]);
        assert s == [s[0]] + s[1..];
      }
    }
  }

  /** A character other than `/` joins the first piece of what follows it. */
  lemma SplitCons(ch: char, s: string)
    requires ch != '/'
    ensures Split([ch] + s) == [[ch] + Split(s)[0]] + Split(s)[1..]
  {
    assert ([ch] + s)[1..] == s;
  }

  /** A slash-free prefix merges into the first piece of what follows it. */
  lemma {:induction false} SplitSlashFreePrefix(p: string, s: string)
    requires '/' !in p
    ensures Split(p + s) == [p + Split(s)[0]] + Split(s)[1..]
  {
    var parts := Split(s);
    if |p| > 0 {
      var q := p[1..];
      SplitSlashFreePrefix(q, s);
      assert p + s == [p[0]] + (q + s);
      SplitCons(p[0], q + s);
      assert Split(q + s)[0] == q + parts[0];
      assert Split(q + s)[1..] == parts[1..];
      assert [p[0]] + (q + parts[0]) == p + parts[0];
    } else {
      assert p + s == s;
      assert p + parts[0] == parts[0];
      assert parts == [parts[0]] + parts[1..];
    }
  }

  /** Splitting undoes `"/".join` when no piece contains a slash. */
  lemma {:induction false} SplitJoinAll(parts: seq<string>)
    requires |parts| >= 1
    requires forall i :: 0 <= i < |parts| ==> '/' !in parts[i]
    ensures Split(JoinAll(parts)) == parts
  {
    if |parts| == 1 {
      SplitSlashFreePrefix(parts[0], "");
      assert parts[0] + "" == parts[0];
    } else {
      var tail := JoinAll(parts[1..]);
      SplitJoinAll(parts[1..]);
      SplitSlashFreePrefix(parts[0], "/" + tail);
      assert Split("/" + tail) == [""] + Split(tail) by {
        assert ("/" + tail)[1..] == tail;
      }
      assert parts[0] + "/" + tail == parts[0] + ("/" + tail);
      assert parts[0] + "" == parts[0];
    }
  }

  /**
    Routing round trip: a topic built from `objName` and `attr` is routed back
    to exactly that pair if and only if neither name contains a slash.
   */
  lemma RouteJoin(objName: string, attr: string)
    ensures Route(Join(objName, attr)) == Some((objName, attr))
            <==> '/' !in objName && '/' !in attr
  {
    assert Join(objName, attr) == JoinAll([objName, attr]);
    if '/' !in objName && '/' !in attr {
      SplitJoinAll([objName, attr]);
    }
  }

  /** Whatever a topic is routed to, neither name contains a slash. */
  lemma RouteSlashFree(topic: string)
    requires Route(topic).Some?
    ensures '/' !in Route(topic).value.0 && '/' !in Route(topic).value.1
  {
  }

  /** In `p + "/" + q` with slash-free `p` and `q`, the only slash is the one between them. */
  lemma OnlySlash(p: string, q: string, i: nat)
    requires '/' !in p && '/' !in q
    requires i < |p + "/" + q| && (p + "/" + q)[i] == '/'
    ensures i == |p|
  {
    var t := p + "/" + q;
    assert forall k :: 0 <= k < |p| ==> t[k] == p[k];
    assert forall k :: |p| < k < |t| ==> t[k] == q[k - |p| - 1];
  }

  /** A topic built from two names that routes anywhere routes to exactly those names. */
  lemma RouteOfJoin(objName: string, attr: string)
    requires Route(Join(objName, attr)).Some?
    ensures Route(Join(objName, attr)) == Some((objName, attr))
  {
    var t := Join(objName, attr);
    var parts := Split(t);
    var p, q := parts[0], parts[1];
    JoinAllSplit(t);
    assert parts == [p, q];
    assert JoinAll(parts) == p + "/" + q by {
      assert parts[1..] == [q];
    }
    assert t[|objName|] == '/';
    OnlySlash(p, q, |objName|);
    assert objName == t[..|p|] && p == t[..|p|];
    assert attr == t[|p| + 1..] && q == t[|p| + 1..];
  }

  /**
    A topic built from names of which one contains a slash is routed nowhere:
    it splits into more than two pieces.
   */
  lemma SlashedRouteNone(objName: string, attr: string)
    requires '/' in objName || '/' in attr
    ensures |Split(Join(objName, attr))| > 2
    ensures Route(Join(objName, attr)).None?
  {
    var t := Join(objName, attr);
    assert |Split(t)| != 1 by {
      JoinAllSplit(t);
      assert t[|objName|] == '/';
      assert '/' in JoinAll(Split(t));
    }
    if Route(Join(objName, attr)).Some? {
      RouteOfJoin(objName, attr);
      RouteSlashFree(Join(objName, attr));
      assert false;
    }
  }
}

=== FILE: wrappers.dfy ===
/** Failure-compatible wrappers shared by the whole model. */
module Wrappers {

  /** A value that may be absent (Python's `None` in a lookup result). */
  datatype Option<+T> = None | Some(value: T)

  /** The outcome of a callback that may raise instead of returning. */
  datatype Result<+T, +E> = Ok(value: T) | Err(error: E)
}
